=== FILE: README.md ===
# Onboarding sequencer, modelled in Dafny

This project models the core of an Android onboarding flow. The app fetches
an education document, shows a splash for the document's intro interval,
and then plays a scripted reveal of the document's cards, one card at a
time. Each card enters from below, slides to the centre, stays for the
document's stay interval, then collapses with a parity-dependent tilt and
straightens. The last card stays expanded instead. After the last card the
list becomes interactive. A tap selects the expanded card and the
background. Save goes to a landing page, and back from there returns to the
list.

The model is functional:

- `types.dfy` holds the records and enums: card snapshot, phase, UI state, document.
- `card_animation.dfy` (`CardAnimationUseCase`) turns one card's choreography into a trace of
  `Emit(snapshot)` / `Hold(ms)` events. `Emissions`, `Holds`, `ElapsedMs` and `Stamp` are
  projections of a trace. `Stamp` gives each published snapshot the clock reading at which it is published.
- `viewmodel.dfy` (`OnboardingViewModel`) holds the session record and every view-model
  transition. The flow is a fold (`AnimateCards`) over card indices that feeds each card's trace
  into `UpdateCardState`. Its timing is `FlowTrace`: the intro wait followed by the card traces in order.
- `card_view.dfy`, `cards_content.dfy` and `screen.dfy` hold the pure render decisions of
  `AnimatedEducationCard`, `CardsSequenceContent` and `OnboardingScreen`.
- `lifecycle.dfy` (`SessionLifecycle`) covers a whole session. `Boot` handles the fetch result,
  and `Interact` applies user intents through what the screen shows. `SessionInvariant` holds on
  every session reached this way.

Modelling choices:

- Delays become `Hold` events carrying the requested milliseconds. `ElapsedMs` applies the coroutine
  rule that a non-positive delay returns at once.
- The float-typed offsets, tilts and pivots only take the values 0, 1000, ±10 and 0/1, so they are integers.
- Kotlin's `%` truncates and Dafny's is Euclidean. The source only compares `cardIndex % 2` with 0,
  and that comparison has the same result under both.

Two behaviours of the code worth stating:

- The final-CTA screen does not give an interactive list. It draws the card list with taps going nowhere.
- The top-bar back button is shown in every phase except the splash.

## Model

| member | source | states |
|---|---|---|
| CardAnimationUseCase.CollapseTilt | app/src/main/java/com/akky/onboarding/domain/usecase/CardAnimationUseCase.kt:43 | the collapse tilt is one of +10 and -10 |
| CardAnimationUseCase.CardTraceShape | app/src/main/java/com/akky/onboarding/domain/usecase/CardAnimationUseCase.kt:9-71 | a non-last card publishes enter(expanded, 1000, 0), centre(expanded, 0, 0), collapse(collapsed, 0, ±10), straighten(collapsed, 0, 0) and waits 200, stay, 1200, 500; the last card publishes only the first two and waits 200, stay, 2500 |
| CardAnimationUseCase.EmissionCount | app/src/main/java/com/akky/onboarding/domain/usecase/CardAnimationUseCase.kt:16-70 | a non-last card publishes exactly 4 snapshots, the last card exactly 2 |
| CardAnimationUseCase.EmissionsBelongToCard | app/src/main/java/com/akky/onboarding/domain/usecase/CardAnimationUseCase.kt:16-66 | every published snapshot is visible, with cardIndex and stackPosition equal to the animated index |
| CardAnimationUseCase.EntryAndSlide | app/src/main/java/com/akky/onboarding/domain/usecase/CardAnimationUseCase.kt:16-38 | the first snapshot is expanded at offset 1000 with no tilt; the second is expanded at offset 0 with no tilt |
| CardAnimationUseCase.TiltOnlyOnCollapse | app/src/main/java/com/akky/onboarding/domain/usecase/CardAnimationUseCase.kt:41-66 | tilt is nonzero only in the third (collapse) snapshot of a non-last card; there it is +10 exactly for an even index, and the card is collapsed |
| CardAnimationUseCase.LastEmissionIsFinal | app/src/main/java/com/akky/onboarding/domain/usecase/CardAnimationUseCase.kt:29-70 | a non-last card ends visible, collapsed, offset 0 and untilted; the last card ends visible, expanded, offset 0 and untilted |
| CardAnimationUseCase.CardTotalHold | app/src/main/java/com/akky/onboarding/domain/usecase/CardAnimationUseCase.kt:26-69 | requested waits sum to 200 + stay + 1200 + 500, or 200 + stay + 2500 for the last card |
| CardAnimationUseCase.CardElapsed | app/src/main/java/com/akky/onboarding/domain/usecase/CardAnimationUseCase.kt:26-69 | the card plays out in 1900 ms (2700 for the last card) plus the stay interval, a non-positive stay taking no time |
| CardAnimationUseCase.CardStampShape | app/src/main/java/com/akky/onboarding/domain/usecase/CardAnimationUseCase.kt:16-67 | for a card started at clock c, the entry is published at c, the centre at c + 200, and for a non-last card the collapse at c + 200 + stay and the straightening at c + 1400 + stay (a non-positive stay counting as 0) |
| OnboardingViewModel.Initial | app/src/main/java/com/akky/onboarding/presentation/viewmodel/OnboardingViewModel.kt:17-36 | a fresh view-model is on the splash with no data, not loading and no error; no slots, expanded index -1, background index 0, not complete, no top bar |
| OnboardingViewModel.BeginLoad | app/src/main/java/com/akky/onboarding/presentation/viewmodel/OnboardingViewModel.kt:44 | starting the load raises only the loading flag and keeps the UI state consistent |
| OnboardingViewModel.OnLoadSuccess | app/src/main/java/com/akky/onboarding/presentation/viewmodel/OnboardingViewModel.kt:49-55 | success publishes the data with loading off and no error; the top bar takes the toolbar text and icon; nothing else changes |
| OnboardingViewModel.OnLoadFailure | app/src/main/java/com/akky/onboarding/presentation/viewmodel/OnboardingViewModel.kt:60-66 | failure leaves no data and loading off; the error is the message, or "Unknown error occurred" when there is none; the phase and everything else stay |
| OnboardingViewModel.InitializeCardStates | app/src/main/java/com/akky/onboarding/presentation/viewmodel/OnboardingViewModel.kt:112-124 | n slots; slot i has cardIndex i and stackPosition i and is hidden, collapsed, offset 0, tilt 0 |
| OnboardingViewModel.UpdateCardState | app/src/main/java/com/akky/onboarding/presentation/viewmodel/OnboardingViewModel.kt:126-132 | the length is kept; slot i becomes the new snapshot; every other slot is unchanged; an index past the end changes nothing |
| OnboardingViewModel.OnCardClicked | app/src/main/java/com/akky/onboarding/presentation/viewmodel/OnboardingViewModel.kt:134-142 | a tap is a no-op before completion or on the already expanded card; otherwise it sets both the expanded and the background index to the tapped card |
| OnboardingViewModel.TapIdempotent | app/src/main/java/com/akky/onboarding/presentation/viewmodel/OnboardingViewModel.kt:134-142 | repeating the same tap changes nothing more |
| OnboardingViewModel.OnSaveButtonClicked | app/src/main/java/com/akky/onboarding/presentation/viewmodel/OnboardingViewModel.kt:144-146 | save always goes to the landing page and changes nothing else |
| OnboardingViewModel.OnBackFromLanding | app/src/main/java/com/akky/onboarding/presentation/viewmodel/OnboardingViewModel.kt:148-150 | back from landing always goes to the card list and changes nothing else |
| OnboardingViewModel.SaveThenBackRestores | app/src/main/java/com/akky/onboarding/presentation/viewmodel/OnboardingViewModel.kt:144-150 | save then back returns the card-list session exactly, card states included |
| OnboardingViewModel.ApplyTraceEffect | app/src/main/java/com/akky/onboarding/presentation/viewmodel/OnboardingViewModel.kt:92-98 | applying a card's trace leaves its slot holding the trace's last snapshot and changes nothing else |
| OnboardingViewModel.ApplyTraceKeeps | app/src/main/java/com/akky/onboarding/presentation/viewmodel/OnboardingViewModel.kt:92-98 | applying any trace, or any prefix of one, changes only the card slots: phase, indices, completion flag, UI state and top bar are kept |
| OnboardingViewModel.AnimateCardEffect | app/src/main/java/com/akky/onboarding/presentation/viewmodel/OnboardingViewModel.kt:85-103 | one loop iteration puts the card's slot in its resting state and makes it the background card; the expanded index is -1 afterwards unless it was the last card |
| OnboardingViewModel.FlowInvariant | app/src/main/java/com/akky/onboarding/presentation/viewmodel/OnboardingViewModel.kt:85-103 | after k cards: those slots rest in their final state, the others are still hidden, the background is k-1, the expanded index is -1 after a non-last card, and the completion flag has not moved |
| OnboardingViewModel.BeforeCardIndices | app/src/main/java/com/akky/onboarding/presentation/viewmodel/OnboardingViewModel.kt:88-89 | just before card i animates, both indices are i, its slot is hidden and the sequence is incomplete |
| OnboardingViewModel.StartOnboardingFlow | app/src/main/java/com/akky/onboarding/presentation/viewmodel/OnboardingViewModel.kt:72-110 | after the flow the phase is the card list and the sequence is complete; expanded = background = size-1 (-1 for no cards); non-last slots are visible, collapsed and straight, and the last slot is visible, expanded and straight |
| OnboardingViewModel.CardsTotalHold | app/src/main/java/com/akky/onboarding/presentation/viewmodel/OnboardingViewModel.kt:85-98 | the cards' requested waits total (n-1)(1900 + stay) + 2700 + stay |
| OnboardingViewModel.FlowTotalHold | app/src/main/java/com/akky/onboarding/presentation/viewmodel/OnboardingViewModel.kt:79-98 | the flow's requested waits are the intro interval plus the cards' total |
| OnboardingViewModel.CardsNoOverlap | app/src/main/java/com/akky/onboarding/presentation/viewmodel/OnboardingViewModel.kt:84-98 | from any starting card and clock, no snapshot of a lower card is published after one of a higher card |
| OnboardingViewModel.FlowNoOverlap | app/src/main/java/com/akky/onboarding/presentation/viewmodel/OnboardingViewModel.kt:79-98 | in the whole flow, card j's first snapshot is published no earlier than card i's last, for i < j |
| OnboardingViewModel.ReplayCard | app/src/main/java/com/akky/onboarding/presentation/viewmodel/OnboardingViewModel.kt:92-98 | replaying one card's published snapshots, each into the slot its cardIndex names, leaves that slot in its resting state |
| OnboardingViewModel.FoldStepReplaysCardBlock | app/src/main/java/com/akky/onboarding/presentation/viewmodel/OnboardingViewModel.kt:85-103 | iteration k of the state fold changes the slots exactly as replaying card k's block of the flow's timing trace does, and that block is the k-th in the trace |
| OnboardingViewModel.FlowTraceReplaysFlow | app/src/main/java/com/akky/onboarding/presentation/viewmodel/OnboardingViewModel.kt:79-103 | replaying the whole flow trace's snapshots onto the initial slots gives the slots the flow leaves |
| AnimatedEducationCard.PivotFractionX | app/src/main/java/com/akky/onboarding/presentation/screen/OnboardingScreen.kt:326 | the horizontal pivot is 0 (left edge) or 1 (right edge) |
| AnimatedEducationCard.Look | app/src/main/java/com/akky/onboarding/presentation/screen/OnboardingScreen.kt:289-330 | the card shows expanded from the tap selection when clickable and from its snapshot otherwise; height is 450 when shown expanded and 80 otherwise; visibility, offset and tilt come from the snapshot; even indices pivot on the left edge |
| AnimatedEducationCard.LookIsConsistent | app/src/main/java/com/akky/onboarding/presentation/screen/OnboardingScreen.kt:295-386 | height, elevation, image size, corner radius and container colour all switch together with the shown-expanded decision |
| AnimatedEducationCard.PivotMatchesTilt | app/src/main/java/com/akky/onboarding/presentation/screen/OnboardingScreen.kt:326 | a card pivots on its left edge exactly when its collapse tilt is +10 |
| CardsSequenceContent.Layout | app/src/main/java/com/akky/onboarding/presentation/components/CardsSequenceContent.kt:48-111 | min(cards, slots) cards are drawn in index order, each with its own slot; the save button and the trailing spacer appear exactly when the sequence is complete |
| CardsSequenceContent.RenderedIff | app/src/main/java/com/akky/onboarding/presentation/components/CardsSequenceContent.kt:90-91 | index i is drawn exactly when i is below both the card count and the slot count |
| CardsSequenceContent.ExpandedFlag | app/src/main/java/com/akky/onboarding/presentation/components/CardsSequenceContent.kt:95 | a drawn card is flagged expanded exactly when its index is the current expanded index, so at most one card is flagged |
| CardsSequenceContent.ClickableIffComplete | app/src/main/java/com/akky/onboarding/presentation/components/CardsSequenceContent.kt:96 | every drawn card is clickable exactly when the sequence is complete |
| CardsSequenceContent.TapTargetInRange | app/src/main/java/com/akky/onboarding/presentation/components/CardsSequenceContent.kt:97 | tapping the k-th drawn card reports index k, which is below both the card count and the slot count |
| OnboardingScreen.OnBackClick | app/src/main/java/com/akky/onboarding/presentation/screen/OnboardingScreen.kt:98-102 | back on the landing page returns to the card list without leaving; in any other phase it finishes the activity and leaves the session unchanged |
| OnboardingScreen.PhaseScreenFor | app/src/main/java/com/akky/onboarding/presentation/screen/OnboardingScreen.kt:161-185 | the dispatch is total: splash, card list, card list, landing; the final-CTA list has expanded index = slot count - 1, complete = true and taps ignored |
| OnboardingScreen.ScreenContent | app/src/main/java/com/akky/onboarding/presentation/screen/OnboardingScreen.kt:131-148 | loading beats error and error beats data; the error screen carries the message; with none of the three nothing is drawn |
| OnboardingScreen.HandleTap | app/src/main/java/com/akky/onboarding/presentation/screen/OnboardingScreen.kt:165-181 | list taps reach the view-model's tap handler except on the final-CTA list, where they are ignored |
| OnboardingScreen.FinalCtaIgnoresTaps | app/src/main/java/com/akky/onboarding/presentation/screen/OnboardingScreen.kt:269-276 | on the final-CTA phase the list is drawn and every tap leaves the session unchanged |
| OnboardingScreen.BackgroundColour | app/src/main/java/com/akky/onboarding/presentation/screen/OnboardingScreen.kt:74-80 | corrected: the background is a card's colour exactly when data is present and 0 <= index < count, and then it is that card's colour |
| OnboardingScreen.BackgroundAsWrittenFailsOnlyBelowZero | app/src/main/java/com/akky/onboarding/presentation/screen/OnboardingScreen.kt:74-80 | the lookup as written throws exactly when data is present and the index is negative; otherwise it agrees with the corrected one |
| SessionLifecycle.Boot | app/src/main/java/com/akky/onboarding/presentation/viewmodel/OnboardingViewModel.kt:42-70 | after a failed fetch: splash, no data, loading off, error = message or fallback; after a successful fetch: card list, complete, data published |
| SessionLifecycle.ReachableInvariant | app/src/main/java/com/akky/onboarding/presentation/viewmodel/OnboardingViewModel.kt:134-150 | every session reached by boot and user intents has a consistent UI state that is not loading, slots at rest, expanded = background, in range with cards and -1 without |
| SessionLifecycle.FinalCtaUnreachable | app/src/main/java/com/akky/onboarding/presentation/viewmodel/OnboardingViewModel.kt:159-164 | no reachable session is in the final-CTA phase |
| SessionLifecycle.BackButtonIffLoaded | app/src/main/java/com/akky/onboarding/presentation/screen/OnboardingScreen.kt:104 | once boot has finished, the flow included, the back button is offered exactly when the document has loaded |
| SessionLifecycle.IntroWaitSplash | app/src/main/java/com/akky/onboarding/presentation/viewmodel/OnboardingViewModel.kt:49-81 | during the intro wait the document is already published and the phase is still the splash: the splash is drawn with the data, no back button is offered, and no intent has any effect |
| SessionLifecycle.IntentsDuringAnimationInert | app/src/main/java/com/akky/onboarding/presentation/screen/OnboardingScreen.kt:98-104 | on the card list before completion, every intent leaves the session unchanged, and only back ends the session |
| SessionLifecycle.MidFlowIntentsInert | app/src/main/java/com/akky/onboarding/presentation/viewmodel/OnboardingViewModel.kt:85-103 | the two states between cards, just before a card starts and just after it has run, are left unchanged by every intent |
| SessionLifecycle.SuspendedFlowIntentsInert | app/src/main/java/com/akky/onboarding/domain/usecase/CardAnimationUseCase.kt:16-70 | while the flow waits inside card k's choreography, after any number j of its events, every intent leaves the session unchanged and only back finishes the activity |
| SessionLifecycle.TopBarTitleAfterBoot | app/src/main/java/com/akky/onboarding/presentation/screen/OnboardingScreen.kt:96 | the top-bar title is the toolbar text after a successful load and "Onboarding" otherwise |
| SessionLifecycle.BackgroundSafeWithCards | app/src/main/java/com/akky/onboarding/presentation/screen/OnboardingScreen.kt:74-80 | with at least one card, the lookup as written never throws on a reachable session and shows the background card's colour |
| SessionLifecycle.OneExpandedCardIsBackground | app/src/main/java/com/akky/onboarding/presentation/screen/OnboardingScreen.kt:296-386 | on a reachable card-list session with cards, all cards are drawn and exactly one is shown expanded, the one whose colour is the background |
| SessionLifecycle.EmptyDeckBackgroundThrows | app/src/main/java/com/akky/onboarding/presentation/screen/OnboardingScreen.kt:74-80 | after loading a document with no cards, the background index is -1 and the lookup as written throws |
| SessionLifecycle.LoadFailureScenario | app/src/main/java/com/akky/onboarding/presentation/viewmodel/OnboardingViewModel.kt:60-66 | the fetch failure "network unreachable" is shown as that error, on the splash, not loading, with no back button |
| SessionLifecycle.ThreeCardScenario | app/src/main/java/com/akky/onboarding/presentation/viewmodel/OnboardingViewModel.kt:72-110 | three cards with stay 300 and intro 100 end complete with card 2 expanded and as background, after 100 + 2200 + 2200 + 3000 ms of requested waits |

## Left out

- Network and document decoding: the fetch is a `FetchResult` input, either the document or a failure with an optional message. The retrofit service, the repository and the use-case wrapper are not part of this model.
- Real time, coroutines and cancellation: the flow runs whole inside `Boot`. User intents are not interleaved with a running animation. The flow can only be interrupted while it waits: during the intro wait, or inside one of a card's waits after some prefix of its events. `SessionLifecycle.IntroWaitSplash` and `SessionLifecycle.SuspendedFlowIntentsInert` show that no intent changes the session at any of these points, and `SessionLifecycle.MidFlowIntentsInert` does the same for the states between cards. So no reachable session is lost. Finishing the activity mid-flow is not followed further.
- SessionLifecycle.BackButtonIffLoaded: covers only sessions after boot has finished. On the intro-wait splash the document has loaded and no back button is offered (`SessionLifecycle.IntroWaitSplash`).
- The splash shown during the intro wait, with data already present, is a state of the flow that `Boot` passes over. `ScreenContent` covers it as `DataContent(_, SplashScreen)`.
- The commented-out landing-page-first branch: the `shouldShowBeforeNavigating` flag is carried in the document and is never read.
- Rendering: tweens, fades, Lottie, image loading, gradients, paddings, and sizes other than those in `CardLook`. The vertical pivot is a constant 0.5 and is not modelled.
- Colour parsing: colours are opaque strings, and the default background is the named constant `DefaultPurple`.
- The system back gesture: the source installs no handler for it. Only the top-bar button is modelled. The top bar and the landing page content are not part of this model.
- `activity?.finish()` does nothing when the host activity is not the app's main activity. The model assumes it is.
- Integer widths: indices and durations are unbounded integers. The source uses Kotlin `Int` widened to `Long`, and realistic documents stay far from overflow.
- OnboardingViewModel.UpdateCardState: the index is a `nat`. A negative index makes the Kotlin list assignment throw, and the only caller passes loop indices.
- OnboardingViewModel.FlowNoOverlap: states "no earlier than". It does not state the stricter gap, at least the 500 ms closing wait, that separates consecutive cards.

## Findings

| source | as written | input that shows it | evidently intended | confidence | as-written member | corrected member |
|---|---|---|---|---|---|---|
| app/src/main/java/com/akky/onboarding/presentation/screen/OnboardingScreen.kt:74-80 | the background uses `educationCardList[backgroundCardIndex]` whenever the index is below the card count | a successful load of a document whose card list is empty: the flow ends with `backgroundCardIndex = size - 1 = -1`, -1 < 0 passes the guard, and the list lookup throws | fall back to the default colour unless 0 <= index < count | not executed | SessionLifecycle.EmptyDeckBackgroundThrows | OnboardingScreen.BackgroundColour |

=== FILE: card_animation.dfy ===
/**
 The per-card choreography of the sequencer. A run of the choreography is a
 trace of events: a snapshot published to the caller, or a timed wait. The
 wait durations are kept as requested; `ElapsedMs` applies the coroutine
 delay rule that a non-positive wait returns at once.
 */
module CardAnimationUseCase {
  import opened OnboardingTypes

  /** Where a card starts, below the viewport. */
  const EntryOffsetY := 1000
  /** Settle time after the card appears, before it slides up. */
  const EntryHoldMs := 200
  /** Time for the simultaneous collapse and tilt to play out. */
  const CollapseHoldMs := 1200
  /** Pause after straightening, before the next card. */
  const StraightenHoldMs := 500
  /** The last card's closing wait, in place of collapse and straighten. */
  const LastCardHoldMs := 2500

  /** One thing the sequencer does: publish a snapshot, or wait `ms` milliseconds. */
  datatype Event = Emit(state: CardAnimationState) | Hold(ms: int)

  /** A published snapshot with the clock reading at which it was published. */
  datatype Stamped = Stamped(at: int, state: CardAnimationState)

  /** The tilt of the collapse step: a fan that alternates with the card's parity. */
  function CollapseTilt(cardIndex: int): (tilt: int)
    ensures tilt == 10 || tilt == -10
  {
    // Kotlin's `%` truncates, Dafny's is Euclidean; they agree on "is zero".
    if cardIndex % 2 == 0 then 10 else -10
  }

  /** A visible snapshot of card `cardIndex`, stacked at its own index. */
  function Visible(cardIndex: int, expanded: bool, offsetY: int, tilt: int): CardAnimationState {
    CardAnimationState(cardIndex := cardIndex, isExpanded := expanded, offsetY := offsetY,
                       isVisible := true, stackPosition := cardIndex, tiltAngle := tilt)
  }

  /** Publishing a snapshot and then waiting. */
  function Step(state: CardAnimationState, ms: int): seq<Event> {
    [Emit(state), Hold(ms)]
  }

  /** The events `animateCardSequence` produces for one card. */
  function AnimateCardSequence(cardIndex: int, stayMs: int, isLastCard: bool): seq<Event> {
    Step(Visible(cardIndex, true, EntryOffsetY, 0), EntryHoldMs)
    + Step(Visible(cardIndex, true, 0, 0), stayMs)
    + (if !isLastCard then
         Step(Visible(cardIndex, false, 0, CollapseTilt(cardIndex)), CollapseHoldMs)
         + Step(Visible(cardIndex, false, 0, 0), StraightenHoldMs)
       else
         [Hold(LastCardHoldMs)])
  }

  /** The snapshot a card rests in once its choreography is over. */
  function FinalCardState(cardIndex: int, isLastCard: bool): CardAnimationState {
    Visible(cardIndex, isLastCard, 0, 0)
  }

  /** The snapshots a trace publishes, in order. */
  function Emissions(t: seq<Event>): seq<CardAnimationState>
    decreases |t|
  {
    if |t| == 0 then []
    else (if t[0].Emit? then [t[0].state] else []) + Emissions(t[1..])
  }

  /** The requested waits of a trace, in order. */
  function Holds(t: seq<Event>): seq<int>
    decreases |t|
  {
    if |t| == 0 then []
    else (if t[0].Hold? then [t[0].ms] else []) + Holds(t[1..])
  }

  function Sum(xs: seq<int>): int
    decreases |xs|
  {
    if |xs| == 0 then 0 else xs[0] + Sum(xs[1..])
  }

  /** How long `delay(ms)` actually suspends: a non-positive wait returns at once. */
  function DelayMs(ms: int): nat {
    if ms > 0 then ms else 0
  }

  /** The time a trace takes to play out. */
  function ElapsedMs(t: seq<Event>): nat
    decreases |t|
  {
    if |t| == 0 then 0
    else (if t[0].Hold? then DelayMs(t[0].ms) else 0) + ElapsedMs(t[1..])
  }

  /** The published snapshots of a trace started at `clock`, each with its publication time. */
  function Stamp(t: seq<Event>, clock: int): seq<Stamped>
    decreases |t|
  {
    if |t| == 0 then []
    else if t[0].Emit? then [Stamped(clock, t[0].state)] + Stamp(t[1..], clock)
    else Stamp(t[1..], clock + DelayMs(t[0].ms))
  }

  lemma {:induction false} EmissionsAppend(a: seq<Event>, b: seq<Event>)
    ensures Emissions(a + b) == Emissions(a) + Emissions(b)
    decreases |a|
  {
    if |a| == 0 {
      assert a + b == b;
    } else {
      assert (a + b)[1..] == a[1..] + b;
      EmissionsAppend(a[1..], b);
    }
  }

  lemma {:induction false} HoldsAppend(a: seq<Event>, b: seq<Event>)
    ensures Holds(a + b) == Holds(a) + Holds(b)
    decreases |a|
  {
    if |a| == 0 {
      assert a + b == b;
    } else {
      assert (a + b)[0] == a[0];
      assert (a + b)[1..] == a[1..] + b;
      HoldsAppend(a[1..], b);
      assert Holds(a + b) == (if a[0].Hold? then [a[0].ms] else []) + Holds(a[1..] + b);
    }
  }

  lemma {:induction false} SumAppend(a: seq<int>, b: seq<int>)
    ensures Sum(a + b) == Sum(a) + Sum(b)
    decreases |a|
  {
    if |a| == 0 {
      assert a + b == b;
    } else {
      assert (a + b)[1..] == a[1..] + b;
      SumAppend(a[1..], b);
    }
  }

  lemma {:induction false} ElapsedAppend(a: seq<Event>, b: seq<Event>)
    ensures ElapsedMs(a + b) == ElapsedMs(a) + ElapsedMs(b)
    decreases |a|
  {
    if |a| == 0 {
      assert a + b == b;
    } else {
      assert (a + b)[1..] == a[1..] + b;
      ElapsedAppend(a[1..], b);
    }
  }

  /** Running two traces back to back: the second starts when the first has elapsed. */
  lemma {:induction false} StampAppend(a: seq<Event>, b: seq<Event>, clock: int)
    ensures Stamp(a + b, clock) == Stamp(a, clock) + Stamp(b, clock + ElapsedMs(a))
    decreases |a|
  {
    if |a| == 0 {
      assert a + b == b;
    } else {
      assert (a + b)[1..] == a[1..] + b;
      if a[0].Emit? {
        StampAppend(a[1..], b, clock);
      } else {
        StampAppend(a[1..], b, clock + DelayMs(a[0].ms));
      }
    }
  }

  /** Stamping publishes exactly the trace's emissions, in order. */
  lemma {:induction false} StampStates(t: seq<Event>, clock: int)
    ensures |Stamp(t, clock)| == |Emissions(t)|
    ensures forall j :: 0 <= j < |Stamp(t, clock)| ==> Stamp(t, clock)[j].state == Emissions(t)[j]
    decreases |t|
  {
    if |t| > 0 {
      if t[0].Emit? {
        StampStates(t[1..], clock);
      } else {
        StampStates(t[1..], clock + DelayMs(t[0].ms));
      }
    }
  }

  /** Every publication of a trace happens between its start and its end. */
  lemma {:induction false} StampWithin(t: seq<Event>, clock: int)
    ensures forall j :: 0 <= j < |Stamp(t, clock)| ==>
              clock <= Stamp(t, clock)[j].at <= clock + ElapsedMs(t)
    decreases |t|
  {
    if |t| > 0 {
      if t[0].Emit? {
        StampWithin(t[1..], clock);
      } else {
        StampWithin(t[1..], clock + DelayMs(t[0].ms));
      }
    }
  }

  /** What a single step publishes, requests and takes. */
  lemma StepProjections(state: CardAnimationState, ms: int)
    ensures Emissions(Step(state, ms)) == [state]
    ensures Holds(Step(state, ms)) == [ms]
    ensures ElapsedMs(Step(state, ms)) == DelayMs(ms)
    ensures Emissions([Hold(ms)]) == [] && Holds([Hold(ms)]) == [ms]
    ensures ElapsedMs([Hold(ms)]) == DelayMs(ms)
  {
    var t := Step(state, ms);
    var h: seq<Event> := [Hold(ms)];
    assert h[1..] == [];
    assert Emissions(h) == [] && Holds(h) == [ms] && ElapsedMs(h) == DelayMs(ms);
    assert t[1..] == h;
    assert Emissions(t) == [state] + Emissions(h);
    assert Holds(t) == [] + Holds(h);
    assert ElapsedMs(t) == 0 + ElapsedMs(h);
  }

  /**
   The whole choreography of one card: the snapshots it publishes and the
   waits it requests, both in order.
   */
  lemma CardTraceShape(cardIndex: int, stayMs: int, isLastCard: bool)
    ensures var t := AnimateCardSequence(cardIndex, stayMs, isLastCard);
      && Emissions(t) == (if isLastCard then
                            [Visible(cardIndex, true, 1000, 0), Visible(cardIndex, true, 0, 0)]
                          else
                            [Visible(cardIndex, true, 1000, 0), Visible(cardIndex, true, 0, 0),
                             Visible(cardIndex, false, 0, CollapseTilt(cardIndex)),
                             Visible(cardIndex, false, 0, 0)])
      && Holds(t) == (if isLastCard then [200, stayMs, 2500] else [200, stayMs, 1200, 500])
  {
    var s1 := Step(Visible(cardIndex, true, EntryOffsetY, 0), EntryHoldMs);
    var s2 := Step(Visible(cardIndex, true, 0, 0), stayMs);
    var s3 := Step(Visible(cardIndex, false, 0, CollapseTilt(cardIndex)), CollapseHoldMs);
    var s4 := Step(Visible(cardIndex, false, 0, 0), StraightenHoldMs);
    var tail := if !isLastCard then s3 + s4 else [Hold(LastCardHoldMs)];
    assert AnimateCardSequence(cardIndex, stayMs, isLastCard) == s1 + s2 + tail;
    StepProjections(Visible(cardIndex, true, EntryOffsetY, 0), EntryHoldMs);
    StepProjections(Visible(cardIndex, true, 0, 0), stayMs);
    StepProjections(Visible(cardIndex, false, 0, CollapseTilt(cardIndex)), CollapseHoldMs);
    StepProjections(Visible(cardIndex, false, 0, 0), StraightenHoldMs);
    StepProjections(Visible(cardIndex, false, 0, 0), LastCardHoldMs);
    EmissionsAppend(s1, s2);
    EmissionsAppend(s1 + s2, tail);
    HoldsAppend(s1, s2);
    HoldsAppend(s1 + s2, tail);
    if !isLastCard {
      EmissionsAppend(s3, s4);
      HoldsAppend(s3, s4);
    }
  }

  /** A non-last card publishes four snapshots, the last card two. */
  lemma EmissionCount(cardIndex: int, stayMs: int, isLastCard: bool)
    ensures |Emissions(AnimateCardSequence(cardIndex, stayMs, isLastCard))| == if isLastCard then 2 else 4
  {
    CardTraceShape(cardIndex, stayMs, isLastCard);
  }

  /** Every published snapshot is visible and names the animated card as both index and stack position. */
  lemma EmissionsBelongToCard(cardIndex: int, stayMs: int, isLastCard: bool)
    ensures forall e :: e in Emissions(AnimateCardSequence(cardIndex, stayMs, isLastCard)) ==>
              e.isVisible && e.cardIndex == cardIndex && e.stackPosition == cardIndex
  {
    CardTraceShape(cardIndex, stayMs, isLastCard);
  }

  /** The card enters expanded, 1000 below centre, untilted, then slides to centre still expanded. */
  lemma EntryAndSlide(cardIndex: int, stayMs: int, isLastCard: bool)
    ensures var e := Emissions(AnimateCardSequence(cardIndex, stayMs, isLastCard));
      && |e| >= 2
      && e[0].isExpanded && e[0].offsetY == 1000 && e[0].tiltAngle == 0
      && e[1].isExpanded && e[1].offsetY == 0 && e[1].tiltAngle == 0
  {
    CardTraceShape(cardIndex, stayMs, isLastCard);
  }

  /**
   Tilt appears only in the collapse step of a non-last card, and there it is
   +10 for an even index and -10 for an odd one.
   */
  lemma TiltOnlyOnCollapse(cardIndex: int, stayMs: int, isLastCard: bool)
    ensures var e := Emissions(AnimateCardSequence(cardIndex, stayMs, isLastCard));
      forall k :: 0 <= k < |e| ==>
        (e[k].tiltAngle != 0 <==> !isLastCard && k == 2)
        && (!isLastCard && k == 2 ==> (e[k].tiltAngle == 10 <==> cardIndex % 2 == 0))
        && (!isLastCard && k == 2 ==> !e[k].isExpanded)
  {
    CardTraceShape(cardIndex, stayMs, isLastCard);
  }

  /**
   The last snapshot a card publishes is its resting state: collapsed and
   straight for a non-last card, expanded and straight for the last.
   */
  lemma LastEmissionIsFinal(cardIndex: int, stayMs: int, isLastCard: bool)
    ensures var e := Emissions(AnimateCardSequence(cardIndex, stayMs, isLastCard));
      && |e| > 0
      && e[|e| - 1] == FinalCardState(cardIndex, isLastCard)
      && e[|e| - 1].isVisible && e[|e| - 1].isExpanded == isLastCard
      && e[|e| - 1].offsetY == 0 && e[|e| - 1].tiltAngle == 0
  {
    CardTraceShape(cardIndex, stayMs, isLastCard);
  }

  /** The requested waits add up to 200 + stay + 1200 + 500, or 200 + stay + 2500 for the last card. */
  lemma CardTotalHold(cardIndex: int, stayMs: int, isLastCard: bool)
    ensures Sum(Holds(AnimateCardSequence(cardIndex, stayMs, isLastCard)))
            == if isLastCard then 200 + stayMs + 2500 else 200 + stayMs + 1200 + 500
  {
    CardTraceShape(cardIndex, stayMs, isLastCard);
    var h := Holds(AnimateCardSequence(cardIndex, stayMs, isLastCard));
    if isLastCard {
      assert h[1..][1..] == [2500] && h[1..][1..][1..] == [];
      assert Sum(h[1..][1..]) == 2500;
      assert Sum(h[1..]) == stayMs + 2500;
    } else {
      assert h[1..][1..][1..] == [500] && h[1..][1..][1..][1..] == [];
      assert Sum(h[1..][1..][1..]) == 500;
      assert Sum(h[1..][1..]) == 1700;
      assert Sum(h[1..]) == stayMs + 1700;
    }
  }

  /** The card plays out in its fixed waits plus the stay interval, a non-positive stay taking no time. */
  lemma CardElapsed(cardIndex: int, stayMs: int, isLastCard: bool)
    ensures ElapsedMs(AnimateCardSequence(cardIndex, stayMs, isLastCard))
            == (if isLastCard then 2700 else 1900) + DelayMs(stayMs)
  {
    var s1 := Step(Visible(cardIndex, true, EntryOffsetY, 0), EntryHoldMs);
    var s2 := Step(Visible(cardIndex, true, 0, 0), stayMs);
    var s3 := Step(Visible(cardIndex, false, 0, CollapseTilt(cardIndex)), CollapseHoldMs);
    var s4 := Step(Visible(cardIndex, false, 0, 0), StraightenHoldMs);
    var tail := if !isLastCard then s3 + s4 else [Hold(LastCardHoldMs)];
    assert AnimateCardSequence(cardIndex, stayMs, isLastCard) == s1 + s2 + tail;
    StepProjections(Visible(cardIndex, true, EntryOffsetY, 0), EntryHoldMs);
    StepProjections(Visible(cardIndex, true, 0, 0), stayMs);
    StepProjections(Visible(cardIndex, false, 0, CollapseTilt(cardIndex)), CollapseHoldMs);
    StepProjections(Visible(cardIndex, false, 0, 0), StraightenHoldMs);
    StepProjections(Visible(cardIndex, false, 0, 0), LastCardHoldMs);
    ElapsedAppend(s1, s2);
    ElapsedAppend(s1 + s2, tail);
    if !isLastCard {
      ElapsedAppend(s3, s4);
    }
  }

  /**
   When each snapshot of a card is published, for a card started at `clock`:
   the entry at once, the centre after the 200 ms settle, and for a non-last
   card the collapse after the stay and the straightening 1200 ms later.
   */
  lemma CardStampShape(cardIndex: int, stayMs: int, isLastCard: bool, clock: int)
    ensures Stamp(AnimateCardSequence(cardIndex, stayMs, isLastCard), clock)
      == [Stamped(clock, Visible(cardIndex, true, 1000, 0)),
          Stamped(clock + 200, Visible(cardIndex, true, 0, 0))]
         + (if isLastCard then []
            else [Stamped(clock + 200 + DelayMs(stayMs), Visible(cardIndex, false, 0, CollapseTilt(cardIndex))),
                  Stamped(clock + 1400 + DelayMs(stayMs), Visible(cardIndex, false, 0, 0))])
  {
    var s1 := Step(Visible(cardIndex, true, EntryOffsetY, 0), EntryHoldMs);
    var s2 := Step(Visible(cardIndex, true, 0, 0), stayMs);
    var s3 := Step(Visible(cardIndex, false, 0, CollapseTilt(cardIndex)), CollapseHoldMs);
    var s4 := Step(Visible(cardIndex, false, 0, 0), StraightenHoldMs);
    var tail := if !isLastCard then s3 + s4 else [Hold(LastCardHoldMs)];
    assert AnimateCardSequence(cardIndex, stayMs, isLastCard) == s1 + (s2 + tail);
    StampAppend(s1, s2 + tail, clock);
    StampAppend(s2, tail, clock + 200);
    StampOfStep(Visible(cardIndex, true, EntryOffsetY, 0), EntryHoldMs, clock);
    StampOfStep(Visible(cardIndex, true, 0, 0), stayMs, clock + 200);
    StepProjections(Visible(cardIndex, true, EntryOffsetY, 0), EntryHoldMs);
    StepProjections(Visible(cardIndex, true, 0, 0), stayMs);
    var afterStay := clock + 200 + DelayMs(stayMs);
    if !isLastCard {
      StampAppend(s3, s4, afterStay);
      StampOfStep(Visible(cardIndex, false, 0, CollapseTilt(cardIndex)), CollapseHoldMs, afterStay);
      StampOfStep(Visible(cardIndex, false, 0, 0), StraightenHoldMs, afterStay + 1200);
      StepProjections(Visible(cardIndex, false, 0, CollapseTilt(cardIndex)), CollapseHoldMs);
    } else {
      var h: seq<Event> := [Hold(LastCardHoldMs)];
      assert h[1..] == [];
      assert Stamp(h, afterStay) == [];
    }
  }

  /** A single step is published at once. */
  lemma StampOfStep(state: CardAnimationState, ms: int, clock: int)
    ensures Stamp(Step(state, ms), clock) == [Stamped(clock, state)]
  {
    var t := Step(state, ms);
    var h: seq<Event> := [Hold(ms)];
    assert h[1..] == [];
    assert Stamp(h, clock) == [];
    assert t[1..] == h;
  }
}

=== FILE: card_view.dfy ===
/**
 The decisions `AnimatedEducationCard` takes for one card. Animation tweens
 only smooth the way to these targets, so the targets are what is modelled.
 */
module AnimatedEducationCard {
  import opened OnboardingTypes
  import CardAnimationUseCase

  /** The target values one card is drawn with; sizes in dp, pivot as a fraction of the width. */
  datatype CardLook = CardLook(
    visible: bool,
    showExpanded: bool,
    heightDp: int,
    elevationDp: int,
    imageSizeDp: int,
    imageCornerDp: int,
    translucentContainer: bool,
    offsetY: int,
    tiltAngle: int,
    pivotFractionX: int)

  /** Once the list is clickable the tap selection decides; before that, the sequencer's snapshot does. */
  function ShowExpanded(state: CardAnimationState, isCurrentlyExpanded: bool, isClickable: bool): bool {
    if isClickable then isCurrentlyExpanded else state.isExpanded
  }

  /** Even cards turn about their left edge, odd cards about their right edge. */
  function PivotFractionX(cardIndex: int): (p: int)
    ensures p == 0 || p == 1
  {
    if cardIndex % 2 == 0 then 0 else 1
  }

  function Look(state: CardAnimationState, isCurrentlyExpanded: bool, isClickable: bool): (r: CardLook)
    ensures r.showExpanded == (if isClickable then isCurrentlyExpanded else state.isExpanded)
    ensures r.heightDp == (if r.showExpanded then 450 else 80)
    ensures r.visible == state.isVisible
    ensures r.offsetY == state.offsetY && r.tiltAngle == state.tiltAngle
    ensures r.pivotFractionX == (if state.cardIndex % 2 == 0 then 0 else 1)
  {
    var expanded := ShowExpanded(state, isCurrentlyExpanded, isClickable);
    CardLook(
      visible := state.isVisible,
      showExpanded := expanded,
      heightDp := if expanded then 450 else 80,
      elevationDp := if expanded then 8 else 2,
      imageSizeDp := if expanded then 350 else 50,
      imageCornerDp := if expanded then 16 else 25,
      translucentContainer := !expanded,
      offsetY := state.offsetY,
      tiltAngle := state.tiltAngle,
      pivotFractionX := PivotFractionX(state.cardIndex))
  }

  /** Height, elevation, image size, corner radius and container all follow the one expanded/collapsed decision. */
  lemma LookIsConsistent(state: CardAnimationState, isCurrentlyExpanded: bool, isClickable: bool)
    ensures var r := Look(state, isCurrentlyExpanded, isClickable);
      && (r.heightDp == 450 <==> r.showExpanded)
      && (r.elevationDp == 8 <==> r.showExpanded)
      && (r.imageSizeDp == 350 <==> r.showExpanded)
      && (r.imageCornerDp == 16 <==> r.showExpanded)
      && (r.translucentContainer <==> !r.showExpanded)
  {
  }

  /** A card is pivoted on its left edge exactly when its collapse tilt is the positive one. */
  lemma PivotMatchesTilt(cardIndex: int)
    ensures PivotFractionX(cardIndex) == 0 <==> CardAnimationUseCase.CollapseTilt(cardIndex) == 10
  {
  }
}

=== FILE: cards_content.dfy ===
/**
 The decisions of the card list: which slots are drawn, which one is flagged
 as the expanded one, whether cards take taps, and when the save button and
 the trailing spacer appear.
 */
module CardsSequenceContent {
  import opened OnboardingTypes

  /** One drawn card: its slot index, its snapshot, and the two flags passed down to it. */
  datatype CardItem = CardItem(index: nat, state: CardAnimationState, isCurrentlyExpanded: bool, isClickable: bool)

  datatype CardsLayout = CardsLayout(items: seq<CardItem>, showSaveButton: bool, showTrailingSpacer: bool)

  function Min(a: nat, b: nat): nat {
    if a <= b then a else b
  }

  /** The list drawn for `cardCount` cards when `cardStates` holds the slots. */
  function Layout(cardCount: nat, cardStates: seq<CardAnimationState>, currentExpandedCard: int, isAnimationComplete: bool)
    : (r: CardsLayout)
    ensures |r.items| == Min(cardCount, |cardStates|)
    ensures forall k :: 0 <= k < |r.items| ==> r.items[k].index == k && r.items[k].state == cardStates[k]
    ensures r.showSaveButton == isAnimationComplete
    ensures r.showTrailingSpacer == isAnimationComplete
  {
    var shown := Min(cardCount, |cardStates|);
    CardsLayout(
      seq(shown, k requires 0 <= k < shown =>
        CardItem(k, cardStates[k], currentExpandedCard == k, isAnimationComplete)),
      isAnimationComplete,
      isAnimationComplete)
  }

  /** A slot is drawn exactly when it is both a card of the document and a slot of the state list. */
  lemma RenderedIff(cardCount: nat, cardStates: seq<CardAnimationState>, currentExpandedCard: int,
                    isAnimationComplete: bool, i: int)
    ensures var items := Layout(cardCount, cardStates, currentExpandedCard, isAnimationComplete).items;
      (exists k :: 0 <= k < |items| && items[k].index == i) <==> 0 <= i < cardCount && i < |cardStates|
  {
    var items := Layout(cardCount, cardStates, currentExpandedCard, isAnimationComplete).items;
    if 0 <= i < cardCount && i < |cardStates| {
      assert items[i].index == i;
    }
  }

  /** A drawn card is flagged expanded exactly when its index is the current expanded index, so at most one is. */
  lemma ExpandedFlag(cardCount: nat, cardStates: seq<CardAnimationState>, currentExpandedCard: int,
                     isAnimationComplete: bool)
    ensures var items := Layout(cardCount, cardStates, currentExpandedCard, isAnimationComplete).items;
      && (forall k :: 0 <= k < |items| ==> (items[k].isCurrentlyExpanded <==> k == currentExpandedCard))
      && (forall a, b ::
            (0 <= a < |items| && 0 <= b < |items| && items[a].isCurrentlyExpanded && items[b].isCurrentlyExpanded)
            ==> a == b)
  {
  }

  /** Every drawn card takes taps exactly when the sequence is complete. */
  lemma ClickableIffComplete(cardCount: nat, cardStates: seq<CardAnimationState>, currentExpandedCard: int,
                             isAnimationComplete: bool)
    ensures var items := Layout(cardCount, cardStates, currentExpandedCard, isAnimationComplete).items;
      forall k :: 0 <= k < |items| ==> items[k].isClickable == isAnimationComplete
  {
  }

  /** Tapping the k-th drawn card reports its own index, which is always a card and a slot. */
  lemma TapTargetInRange(cardCount: nat, cardStates: seq<CardAnimationState>, currentExpandedCard: int,
                         isAnimationComplete: bool, k: nat)
    requires k < |Layout(cardCount, cardStates, currentExpandedCard, isAnimationComplete).items|
    ensures var item := Layout(cardCount, cardStates, currentExpandedCard, isAnimationComplete).items[k];
      item.index == k && item.index < cardCount && item.index < |cardStates|
  {
  }
}

=== FILE: lifecycle.dfy ===
/**
 A whole session: the view-model boots from a fetch result, then the user
 acts on what the screen shows. The invariant below holds of every session
 reached this way.
 */
module SessionLifecycle {
  import opened Nullable
  import opened OnboardingTypes
  import opened CardAnimationUseCase
  import opened OnboardingViewModel
  import opened OnboardingScreen
  import CardsSequenceContent
  import AnimatedEducationCard

  /** What the user can do on the screen. */
  datatype UserIntent = TapCard(position: nat) | TapSave | PressBack

  /** One handled intent: the new session, and whether the activity has been finished. */
  datatype Handled = Handled(session: Session, ended: bool)

  /** Construction of the view-model: start loading, then handle the fetch result. */
  function Boot(fetch: FetchResult): (s: Session)
    ensures fetch.FetchFailed? ==>
              s.animationPhase == Splash && s.uiState.data.None? && !s.uiState.isLoading
              && s.uiState.error == Some(fetch.message.OrElse(UnknownError))
    ensures fetch.Fetched? ==>
              s.animationPhase == CardsSequence && s.isAnimationComplete
              && s.uiState == OnboardingUiState(Some(fetch.data), false, None)
  {
    var loading := BeginLoad(Initial());
    match fetch
    case Fetched(data) => StartOnboardingFlow(OnLoadSuccess(loading, data), data)
    case FetchFailed(message) => OnLoadFailure(loading, message)
  }

  /** An intent takes effect only through something the screen actually shows. */
  function ApplyIntent(s: Session, intent: UserIntent): Handled {
    match intent
    case TapCard(position) =>
      var content := ScreenContent(s);
      if content.DataContent? && content.screen.CardsScreen? then
        var items := CardsLayoutFor(content.data, content.screen.args).items;
        if position < |items| then Handled(HandleTap(s, content.screen.args, items[position].index), false)
        else Handled(s, false)
      else Handled(s, false)
    case TapSave =>
      var content := ScreenContent(s);
      if content.DataContent? && content.screen.CardsScreen?
         && CardsLayoutFor(content.data, content.screen.args).showSaveButton
      then Handled(OnSaveButtonClicked(s), false)
      else Handled(s, false)
    case PressBack =>
      if ShowBackButton(s.animationPhase) then
        var b := OnBackClick(s);
        Handled(b.session, b.finishesActivity)
      else Handled(s, false)
  }

  /** The session after the user's intents, stopping at the one that finishes the activity. */
  function Interact(s: Session, intents: seq<UserIntent>): Session
    decreases |intents|
  {
    if |intents| == 0 then s
    else
      var h := ApplyIntent(s, intents[0]);
      if h.ended then h.session else Interact(h.session, intents[1..])
  }

  /**
   What holds of every session after boot: the UI state is consistent and no
   longer loading, the final-CTA phase is never entered, a failed load stays
   on the splash, and with data every slot rests in its final state while the
   expanded card and the background card coincide, in range when there are
   cards and -1 when there are none.
   */
  ghost predicate SessionInvariant(s: Session) {
    && UiConsistent(s.uiState)
    && !s.uiState.isLoading
    && s.animationPhase != FinalCta
    && (s.uiState.data.None? ==>
          s.animationPhase == Splash && s.uiState.error.Some? && s.cardStates == [] && !s.isAnimationComplete)
    && (s.uiState.data.Some? ==>
          var n := |s.uiState.data.value.educationCardList|;
          && (s.animationPhase == CardsSequence || s.animationPhase == LandingPage)
          && s.isAnimationComplete
          && s.cardStates == FinalStates(n)
          && s.currentExpandedCard == s.backgroundCardIndex
          && (n == 0 ==> s.backgroundCardIndex == -1)
          && (n > 0 ==> 0 <= s.backgroundCardIndex < n))
  }

  lemma BootEstablishes(fetch: FetchResult)
    ensures SessionInvariant(Boot(fetch))
  {
  }

  /** Every intent keeps the invariant. */
  lemma IntentPreserves(s: Session, intent: UserIntent)
    requires SessionInvariant(s)
    ensures SessionInvariant(ApplyIntent(s, intent).session)
  {
    if intent.TapCard? {
      var content := ScreenContent(s);
      if content.DataContent? && content.screen.CardsScreen? {
        var args := content.screen.args;
        var items := CardsLayoutFor(content.data, args).items;
        if intent.position < |items| {
          CardsSequenceContent.TapTargetInRange(|content.data.educationCardList|, args.cardStates,
            args.currentExpandedCard, args.isAnimationComplete, intent.position);
        }
      }
    }
  }

  lemma {:induction false} InteractPreserves(s: Session, intents: seq<UserIntent>)
    requires SessionInvariant(s)
    ensures SessionInvariant(Interact(s, intents))
    decreases |intents|
  {
    if |intents| > 0 {
      IntentPreserves(s, intents[0]);
      InteractPreserves(ApplyIntent(s, intents[0]).session, intents[1..]);
    }
  }

  /** Every reachable session satisfies the invariant. */
  lemma ReachableInvariant(fetch: FetchResult, intents: seq<UserIntent>)
    ensures SessionInvariant(Interact(Boot(fetch), intents))
  {
    BootEstablishes(fetch);
    InteractPreserves(Boot(fetch), intents);
  }

  /** The final-CTA phase is declared but no reachable session is in it. */
  lemma FinalCtaUnreachable(fetch: FetchResult, intents: seq<UserIntent>)
    ensures Interact(Boot(fetch), intents).animationPhase != FinalCta
  {
    ReachableInvariant(fetch, intents);
  }

  /** With at least one card, the as-written background lookup never throws and shows the background card's colour. */
  lemma BackgroundSafeWithCards(fetch: FetchResult, intents: seq<UserIntent>)
    requires fetch.Fetched? && |fetch.data.educationCardList| > 0
    ensures var s := Interact(Boot(fetch), intents);
      && BackgroundColourAsWritten(s) == Some(BackgroundColour(s))
      && 0 <= s.backgroundCardIndex < |fetch.data.educationCardList|
      && BackgroundColour(s) == CardColour(fetch.data.educationCardList[s.backgroundCardIndex].backGroundColor)
  {
    ReachableInvariant(fetch, intents);
    var s := Interact(Boot(fetch), intents);
    assert s.uiState.data == Some(fetch.data) by {
      UiDataStable(Boot(fetch), intents);
    }
  }

  /** No intent changes the UI state or the top bar. */
  lemma {:induction false} UiDataStable(s: Session, intents: seq<UserIntent>)
    ensures Interact(s, intents).uiState == s.uiState
    ensures Interact(s, intents).topBarData == s.topBarData
    decreases |intents|
  {
    if |intents| > 0 {
      UiDataStable(ApplyIntent(s, intents[0]).session, intents[1..]);
    }
  }

  /** Once boot has finished (the flow included), the back button is offered exactly when the document has loaded. */
  lemma BackButtonIffLoaded(fetch: FetchResult, intents: seq<UserIntent>)
    ensures var s := Interact(Boot(fetch), intents);
      ShowBackButton(s.animationPhase) <==> s.uiState.data.Some?
  {
    ReachableInvariant(fetch, intents);
  }

  /** The top bar shows the document's toolbar text once loaded, and the fixed fallback after a failed load. */
  lemma TopBarTitleAfterBoot(fetch: FetchResult, intents: seq<UserIntent>)
    ensures var s := Interact(Boot(fetch), intents);
      TopBarTitle(s) == if fetch.Fetched? then fetch.data.toolBarText else "Onboarding"
  {
    UiDataStable(Boot(fetch), intents);
  }

  /** A document with no cards: the flow leaves the background index at -1 and the as-written lookup throws. */
  lemma EmptyDeckBackgroundThrows(data: EducationData)
    requires |data.educationCardList| == 0
    ensures Boot(Fetched(data)).backgroundCardIndex == -1
    ensures BackgroundColourAsWritten(Boot(Fetched(data))).None?
    ensures BackgroundColour(Boot(Fetched(data))) == DefaultPurple
  {
  }

  /** A fetch failing with "network unreachable": the error is shown and the splash stays. */
  lemma LoadFailureScenario()
    ensures var s := Boot(FetchFailed(Some("network unreachable")));
      && s.uiState.error == Some("network unreachable") && s.animationPhase == Splash && !s.uiState.isLoading
      && ScreenContent(s) == ErrorScreen("network unreachable")
      && !ShowBackButton(s.animationPhase)
  {
  }

  /** Three cards, stay 300 ms, intro 100 ms: 2200 ms for each of the first two cards, 3000 for the last, last card expanded. */
  lemma ThreeCardScenario(data: EducationData)
    requires |data.educationCardList| == 3
    requires data.expandCardStayInterval == 300 && data.collapseExpandIntroInterval == 100
    ensures var s := Boot(Fetched(data));
      && s.isAnimationComplete && s.currentExpandedCard == 2 && s.backgroundCardIndex == 2
      && s.animationPhase == CardsSequence
    ensures Sum(Holds(FlowTrace(data))) == 100 + 2200 + 2200 + 3000
  {
    FlowTotalHold(data);
  }

  /**
   On a reachable card-list session with cards, every card is drawn and
   exactly one is shown expanded: the card whose colour is the background.
   */
  lemma OneExpandedCardIsBackground(fetch: FetchResult, intents: seq<UserIntent>)
    requires fetch.Fetched? && |fetch.data.educationCardList| > 0
    requires Interact(Boot(fetch), intents).animationPhase == CardsSequence
    ensures var s := Interact(Boot(fetch), intents);
            var content := ScreenContent(s);
      && content.DataContent? && content.screen.CardsScreen?
      && var items := CardsLayoutFor(content.data, content.screen.args).items;
         && |items| == |fetch.data.educationCardList|
         && 0 <= s.backgroundCardIndex < |items|
         && s.currentExpandedCard == s.backgroundCardIndex
         && (forall k :: 0 <= k < |items| ==>
               (AnimatedEducationCard.Look(items[k].state, items[k].isCurrentlyExpanded, items[k].isClickable).showExpanded
                <==> k == s.backgroundCardIndex))
  {
    ReachableInvariant(fetch, intents);
    UiDataStable(Boot(fetch), intents);
  }

  /**
   The intro wait: the document is published while the phase is still the
   splash, so the splash is drawn with the data, no back button is offered,
   and no intent has any effect.
   */
  lemma IntroWaitSplash(data: EducationData, intent: UserIntent)
    ensures var s := OnLoadSuccess(BeginLoad(Initial()), data);
      && s.uiState.data == Some(data)
      && ScreenContent(s) == DataContent(data, SplashScreen)
      && !ShowBackButton(s.animationPhase)
      && ApplyIntent(s, intent) == Handled(s, false)
  {
  }

  /**
   While the animation runs on the card list, no intent changes the
   session: taps are refused by the completion guard, the save button is not
   drawn, and back only finishes the activity.
   */
  lemma IntentsDuringAnimationInert(s: Session, intent: UserIntent)
    requires s.animationPhase == CardsSequence && !s.isAnimationComplete
    ensures ApplyIntent(s, intent).session == s
    ensures ApplyIntent(s, intent).ended <==> intent.PressBack?
  {
  }

  /**
   The two states between cards, just before a card starts and just after
   it has run, are inert: an intent leaves them as they are. The coroutine
   does not suspend at either; the states it waits in are covered by
   `SuspendedFlowIntentsInert`.
   */
  lemma MidFlowIntentsInert(data: EducationData, k: nat, intent: UserIntent)
    requires k < |data.educationCardList|
    ensures var n := |data.educationCardList|;
            var s0 := EnterCardsSequence(OnLoadSuccess(BeginLoad(Initial()), data), data);
            var before := EnterCard(AnimateCards(s0, k, n, data.expandCardStayInterval), k);
            var after := AnimateCards(s0, k + 1, n, data.expandCardStayInterval);
      && ApplyIntent(before, intent).session == before
      && ApplyIntent(after, intent).session == after
  {
    var n := |data.educationCardList|;
    var s0 := EnterCardsSequence(OnLoadSuccess(BeginLoad(Initial()), data), data);
    FlowInvariant(s0, k, n, data.expandCardStayInterval);
    FlowInvariant(s0, k + 1, n, data.expandCardStayInterval);
    IntentsDuringAnimationInert(EnterCard(AnimateCards(s0, k, n, data.expandCardStayInterval), k), intent);
    IntentsDuringAnimationInert(AnimateCards(s0, k + 1, n, data.expandCardStayInterval), intent);
  }

  /**
   The sessions an intent can actually meet during the flow: the coroutine
   is suspended in one of card k's waits, after the first j events of its
   choreography have been applied. Every such session is inert: an intent
   leaves it unchanged, and only back finishes the activity.
   */
  lemma SuspendedFlowIntentsInert(data: EducationData, k: nat, j: nat, intent: UserIntent)
    requires k < |data.educationCardList|
    requires j <= |AnimateCardSequence(k, data.expandCardStayInterval, k == |data.educationCardList| - 1)|
    ensures var n := |data.educationCardList|;
            var stay := data.expandCardStayInterval;
            var s0 := EnterCardsSequence(OnLoadSuccess(BeginLoad(Initial()), data), data);
            var mid := ApplyTrace(EnterCard(AnimateCards(s0, k, n, stay), k), k,
                                  AnimateCardSequence(k, stay, k == n - 1)[..j]);
      && ApplyIntent(mid, intent).session == mid
      && (ApplyIntent(mid, intent).ended <==> intent.PressBack?)
  {
    var n := |data.educationCardList|;
    var stay := data.expandCardStayInterval;
    var s0 := EnterCardsSequence(OnLoadSuccess(BeginLoad(Initial()), data), data);
    FlowInvariant(s0, k, n, stay);
    var before := EnterCard(AnimateCards(s0, k, n, stay), k);
    ApplyTraceKeeps(before, k, AnimateCardSequence(k, stay, k == n - 1)[..j]);
    IntentsDuringAnimationInert(ApplyTrace(before, k, AnimateCardSequence(k, stay, k == n - 1)[..j]), intent);
  }
}

=== FILE: nullable.dfy ===
/** Kotlin's nullable references, as an explicit absent-or-present value. */
module Nullable {

  datatype Option<T> = None | Some(value: T) {

    /** The elvis operator `this ?: fallback`. */
    function OrElse(fallback: T): (r: T)
      ensures this.Some? ==> r == value
      ensures this.None? ==> r == fallback
    {
      if Some? then value else fallback
    }
  }
}

=== FILE: screen.dfy ===
/**
 The pure decisions of the onboarding screen: what fills the content area,
 which screen a phase shows, where the back button leads, the top-bar title
 and the background colour.
 */
module OnboardingScreen {
  import opened Nullable
  import opened OnboardingTypes
  import opened OnboardingViewModel
  import CardsSequenceContent

  /** Where a card tap goes: to the view-model, or nowhere (the final-CTA list). */
  datatype TapHandler = ForwardToViewModel | IgnoreTap

  /** The arguments the card list is drawn with. */
  datatype CardsArgs = CardsArgs(
    cardStates: seq<CardAnimationState>,
    currentExpandedCard: int,
    isAnimationComplete: bool,
    onCardClick: TapHandler)

  datatype PhaseScreen = SplashScreen | CardsScreen(args: CardsArgs) | LandingScreen

  /** What fills the content area. */
  datatype Content =
    | LoadingScreen
    | ErrorScreen(message: string)
    | DataContent(data: EducationData, screen: PhaseScreen)
    | NoContent

  /** The background colour: the fixed purple, or a card's own colour string. */
  datatype Colour = DefaultPurple | CardColour(colour: string)

  const DefaultTitle := "Onboarding"

  /** The top bar offers a back button everywhere but on the splash. */
  function ShowBackButton(phase: AnimationPhase): bool {
    phase != Splash
  }

  /** The result of a back press: the new session, and whether the activity is finished. */
  datatype BackOutcome = BackOutcome(session: Session, finishesActivity: bool)

  /** Back from the landing page returns to the card list; from any other phase it leaves the app. */
  function OnBackClick(s: Session): (r: BackOutcome)
    ensures s.animationPhase == LandingPage ==>
              !r.finishesActivity && r.session.animationPhase == CardsSequence
              && r.session.(animationPhase := LandingPage) == s
    ensures s.animationPhase != LandingPage ==> r.finishesActivity && r.session == s
  {
    match s.animationPhase
    case LandingPage => BackOutcome(OnBackFromLanding(s), false)
    case _ => BackOutcome(s, true)
  }

  function TopBarTitle(s: Session): string {
    if s.topBarData.Some? then s.topBarData.value.title else DefaultTitle
  }

  /** The screen each phase shows; the final-CTA phase falls back to a completed, tap-ignoring card list. */
  function PhaseScreenFor(s: Session): (r: PhaseScreen)
    ensures r.CardsScreen? <==> s.animationPhase == CardsSequence || s.animationPhase == FinalCta
    ensures r.SplashScreen? <==> s.animationPhase == Splash
    ensures r.LandingScreen? <==> s.animationPhase == LandingPage
    ensures s.animationPhase == CardsSequence ==>
              r.args == CardsArgs(s.cardStates, s.currentExpandedCard, s.isAnimationComplete, ForwardToViewModel)
    ensures s.animationPhase == FinalCta ==>
              r.args.cardStates == s.cardStates && r.args.currentExpandedCard == |s.cardStates| - 1
              && r.args.isAnimationComplete && r.args.onCardClick == IgnoreTap
  {
    match s.animationPhase
    case Splash => SplashScreen
    case CardsSequence =>
      CardsScreen(CardsArgs(s.cardStates, s.currentExpandedCard, s.isAnimationComplete, ForwardToViewModel))
    case FinalCta => CardsScreen(CardsArgs(s.cardStates, |s.cardStates| - 1, true, IgnoreTap))
    case LandingPage => LandingScreen
  }

  /** Loading wins over an error, an error over data, and with none of them nothing is drawn. */
  function ScreenContent(s: Session): (r: Content)
    ensures s.uiState.isLoading <==> r.LoadingScreen?
    ensures !s.uiState.isLoading && s.uiState.error.Some? <==> r.ErrorScreen?
    ensures r.ErrorScreen? ==> Some(r.message) == s.uiState.error
    ensures r.DataContent? <==> !s.uiState.isLoading && s.uiState.error.None? && s.uiState.data.Some?
    ensures r.DataContent? ==> Some(r.data) == s.uiState.data && r.screen == PhaseScreenFor(s)
    ensures r.NoContent? <==> !s.uiState.isLoading && s.uiState.error.None? && s.uiState.data.None?
  {
    if s.uiState.isLoading then LoadingScreen
    else if s.uiState.error.Some? then ErrorScreen(s.uiState.error.value)
    else if s.uiState.data.Some? then DataContent(s.uiState.data.value, PhaseScreenFor(s))
    else NoContent
  }

  /** The card list drawn for a data screen. */
  function CardsLayoutFor(data: EducationData, args: CardsArgs): CardsSequenceContent.CardsLayout {
    CardsSequenceContent.Layout(|data.educationCardList|, args.cardStates, args.currentExpandedCard,
                                args.isAnimationComplete)
  }

  /** A tap on a drawn card with index `cardIndex`. */
  function HandleTap(s: Session, args: CardsArgs, cardIndex: int): (r: Session)
    ensures args.onCardClick == IgnoreTap ==> r == s
    ensures args.onCardClick == ForwardToViewModel ==> r == OnCardClicked(s, cardIndex)
  {
    match args.onCardClick
    case ForwardToViewModel => OnCardClicked(s, cardIndex)
    case IgnoreTap => s
  }

  /**
   The background exactly as the screen computes it. `None` stands for the
   list lookup throwing: the guard bounds the index from above only.
   */
  function BackgroundColourAsWritten(s: Session): Option<Colour> {
    if s.uiState.data.None? then Some(DefaultPurple)
    else
      var cards := s.uiState.data.value.educationCardList;
      if s.backgroundCardIndex < |cards| then
        if 0 <= s.backgroundCardIndex then Some(CardColour(cards[s.backgroundCardIndex].backGroundColor))
        else None
      else Some(DefaultPurple)
  }

  /** The background with the index checked on both sides. */
  function BackgroundColour(s: Session): (r: Colour)
    ensures r.CardColour? <==>
              s.uiState.data.Some? && 0 <= s.backgroundCardIndex < |s.uiState.data.value.educationCardList|
    ensures r.CardColour? ==>
              r.colour == s.uiState.data.value.educationCardList[s.backgroundCardIndex].backGroundColor
  {
    if s.uiState.data.None? then DefaultPurple
    else
      var cards := s.uiState.data.value.educationCardList;
      if 0 <= s.backgroundCardIndex < |cards| then CardColour(cards[s.backgroundCardIndex].backGroundColor)
      else DefaultPurple
  }

  /** The as-written lookup fails exactly on a negative index with data present; otherwise it agrees with the checked one. */
  lemma BackgroundAsWrittenFailsOnlyBelowZero(s: Session)
    ensures BackgroundColourAsWritten(s).None? <==> s.uiState.data.Some? && s.backgroundCardIndex < 0
    ensures BackgroundColourAsWritten(s).Some? ==> BackgroundColourAsWritten(s).value == BackgroundColour(s)
  {
  }

  /** The final-CTA list ignores every tap. */
  lemma FinalCtaIgnoresTaps(s: Session, cardIndex: int)
    requires s.animationPhase == FinalCta
    ensures PhaseScreenFor(s).CardsScreen? && HandleTap(s, PhaseScreenFor(s).args, cardIndex) == s
  {
  }
}

=== FILE: types.dfy ===
/**
 The records and enums shared by the sequencer, the view-model and the
 presentation layer. Colours, image URLs and texts are opaque strings; the
 float-typed animation values of the app only ever hold 0, 1000 and +/-10,
 so they are integers here.
 */
module OnboardingTypes {
  import opened Nullable

  /** One slide of the onboarding deck. */
  datatype EducationCard = EducationCard(
    backGroundColor: string,
    startGradient: string,
    endGradient: string,
    image: string,
    expandStateText: string,
    collapsedStateText: string)

  /** The floating save button's descriptor. */
  datatype SaveButtonCta = SaveButtonCta(text: string, textColor: string, backgroundColor: string)

  /** The fetched onboarding document. Both intervals are milliseconds. */
  datatype EducationData = EducationData(
    introTitle: string,
    introSubtitle: string,
    introSubtitleIcon: string,
    toolBarText: string,
    toolBarIcon: Option<string>,
    educationCardList: seq<EducationCard>,
    saveButtonCta: SaveButtonCta,
    ctaLottie: string,
    actionText: string,
    collapseExpandIntroInterval: int,
    expandCardStayInterval: int,
    shouldShowBeforeNavigating: bool)

  /** Loading / error / data triple observed by the screen. */
  datatype OnboardingUiState = OnboardingUiState(
    data: Option<EducationData>,
    isLoading: bool,
    error: Option<string>)

  /** The coarse phase of the session; FinalCta is declared but never produced. */
  datatype AnimationPhase = Splash | CardsSequence | FinalCta | LandingPage

  /** The per-card snapshot the sequencer emits and the card list holds. */
  datatype CardAnimationState = CardAnimationState(
    cardIndex: int,
    isExpanded: bool,
    offsetY: int,
    isVisible: bool,
    stackPosition: int,
    tiltAngle: int)

  datatype TopBarData = TopBarData(title: string, iconUrl: Option<string>)
}

=== FILE: viewmodel.dfy ===
/**
 The onboarding session as an immutable record, with the view-model's
 transitions as functions on it. The coroutine flow becomes a fold over the
 card indices that applies each card's trace through `UpdateCardState`; its
 timing is the concatenation of the same traces after the intro wait.
 */
module OnboardingViewModel {
  import opened Nullable
  import opened OnboardingTypes
  import opened CardAnimationUseCase

  const UnknownError := "Unknown error occurred"

  /** Every observable field of the view-model at one instant. */
  datatype Session = Session(
    uiState: OnboardingUiState,
    animationPhase: AnimationPhase,
    cardStates: seq<CardAnimationState>,
    currentExpandedCard: int,
    backgroundCardIndex: int,
    isAnimationComplete: bool,
    topBarData: Option<TopBarData>)

  /** What the fetch collaborator hands back: the document, or a failure with a possibly absent message. */
  datatype FetchResult = Fetched(data: EducationData) | FetchFailed(message: Option<string>)

  /** The loading / error / data consistency the screen relies on. */
  predicate UiConsistent(u: OnboardingUiState) {
    && !(u.isLoading && u.data.Some?)
    && (u.error.Some? ==> u.data.None?)
  }

  /** The field values a freshly constructed view-model starts with. */
  function Initial(): (s: Session)
    ensures UiConsistent(s.uiState) && s.animationPhase == Splash
    ensures s.uiState == OnboardingUiState(None, false, None)
    ensures s.cardStates == [] && s.currentExpandedCard == -1 && s.backgroundCardIndex == 0
    ensures !s.isAnimationComplete && s.topBarData.None?
  {
    Session(OnboardingUiState(None, false, None), Splash, [], -1, 0, false, None)
  }

  /** The first thing the load does: raise the loading flag on the current UI state. */
  function BeginLoad(s: Session): (r: Session)
    requires s.uiState.data.None?
    ensures UiConsistent(r.uiState) <==> UiConsistent(s.uiState)
    ensures r.uiState.isLoading && r.uiState.data == s.uiState.data && r.uiState.error == s.uiState.error
    ensures r.(uiState := s.uiState) == s
  {
    s.(uiState := s.uiState.(isLoading := true))
  }

  /** A successful fetch: data published, loading over, no error; the top bar takes the toolbar fields. */
  function OnLoadSuccess(s: Session, data: EducationData): (r: Session)
    ensures UiConsistent(r.uiState)
    ensures r.uiState.data == Some(data) && !r.uiState.isLoading && r.uiState.error.None?
    ensures r.topBarData == Some(TopBarData(data.toolBarText, data.toolBarIcon))
    ensures r.(uiState := s.uiState, topBarData := s.topBarData) == s
  {
    s.(uiState := OnboardingUiState(Some(data), false, None),
       topBarData := Some(TopBarData(data.toolBarText, data.toolBarIcon)))
  }

  /** A failed fetch: no data, loading over, the message (or a fixed fallback) as the error; nothing else moves. */
  function OnLoadFailure(s: Session, message: Option<string>): (r: Session)
    ensures UiConsistent(r.uiState)
    ensures r.uiState.data.None? && !r.uiState.isLoading
    ensures message.Some? ==> r.uiState.error == message
    ensures message.None? ==> r.uiState.error == Some(UnknownError)
    ensures r.animationPhase == s.animationPhase
    ensures r.(uiState := s.uiState) == s
  {
    s.(uiState := OnboardingUiState(None, false, Some(message.OrElse(UnknownError))))
  }

  /** The snapshot every slot starts in: hidden, collapsed, untilted, at its own stack position. */
  function HiddenCardState(index: int): CardAnimationState {
    CardAnimationState(cardIndex := index, isExpanded := false, offsetY := 0,
                       isVisible := false, stackPosition := index, tiltAngle := 0)
  }

  /** One slot per card, each hidden at its own index. */
  function InitializeCardStates(cardCount: nat): (r: seq<CardAnimationState>)
    ensures |r| == cardCount
    ensures forall i :: 0 <= i < cardCount ==>
              && r[i].cardIndex == i && r[i].stackPosition == i
              && !r[i].isVisible && !r[i].isExpanded
              && r[i].offsetY == 0 && r[i].tiltAngle == 0
  {
    seq(cardCount, i => HiddenCardState(i))
  }

  /** Replaces slot `index` when it exists; an index past the end leaves the list as it is. */
  function UpdateCardState(states: seq<CardAnimationState>, index: nat, newState: CardAnimationState)
    : (r: seq<CardAnimationState>)
    ensures |r| == |states|
    ensures index < |states| ==> r[index] == newState
    ensures forall j :: 0 <= j < |states| && j != index ==> r[j] == states[j]
    ensures index >= |states| ==> r == states
  {
    if index < |states| then states[index := newState] else states
  }

  /** A card tap: ignored while the sequence runs or when the card is already expanded. */
  function OnCardClicked(s: Session, cardIndex: int): (r: Session)
    ensures !s.isAnimationComplete ==> r == s
    ensures s.currentExpandedCard == cardIndex ==> r == s
    ensures s.isAnimationComplete && s.currentExpandedCard != cardIndex ==>
              r == s.(currentExpandedCard := cardIndex, backgroundCardIndex := cardIndex)
  {
    if !s.isAnimationComplete then s
    else if s.currentExpandedCard == cardIndex then s
    else s.(currentExpandedCard := cardIndex, backgroundCardIndex := cardIndex)
  }

  /** The save button: always to the landing page, whatever card is expanded. */
  function OnSaveButtonClicked(s: Session): (r: Session)
    ensures r.animationPhase == LandingPage
    ensures r.(animationPhase := s.animationPhase) == s
  {
    s.(animationPhase := LandingPage)
  }

  /** Back from the landing page: always to the card list, which is kept as it was. */
  function OnBackFromLanding(s: Session): (r: Session)
    ensures r.animationPhase == CardsSequence
    ensures r.(animationPhase := s.animationPhase) == s
  {
    s.(animationPhase := CardsSequence)
  }

  /** Feeding a card's trace to the session: each published snapshot overwrites slot `index`. */
  function ApplyTrace(s: Session, index: nat, t: seq<Event>): Session
    decreases |t|
  {
    if |t| == 0 then s
    else
      var s' := if t[0].Emit? then s.(cardStates := UpdateCardState(s.cardStates, index, t[0].state)) else s;
      ApplyTrace(s', index, t[1..])
  }

  /** Before card `index` animates, it is both the background card and the expanded card. */
  function EnterCard(s: Session, index: nat): Session {
    s.(backgroundCardIndex := index, currentExpandedCard := index)
  }

  /** One iteration of the flow's loop over `cardCount` cards. */
  function AnimateCard(s: Session, index: nat, cardCount: nat, stayMs: int): Session {
    var isLastCard := index == cardCount - 1;
    var s' := ApplyTrace(EnterCard(s, index), index, AnimateCardSequence(index, stayMs, isLastCard));
    if !isLastCard then s'.(currentExpandedCard := -1) else s'
  }

  /** The session after the loop has run cards 0 .. done-1. */
  function AnimateCards(s: Session, done: nat, cardCount: nat, stayMs: int): Session
    requires done <= cardCount
    decreases done
  {
    if done == 0 then s
    else AnimateCard(AnimateCards(s, done - 1, cardCount, stayMs), done - 1, cardCount, stayMs)
  }

  /** The session right after the intro wait: card-list phase, all slots hidden. */
  function EnterCardsSequence(s: Session, data: EducationData): Session {
    s.(animationPhase := CardsSequence,
       cardStates := InitializeCardStates(|data.educationCardList|))
  }

  /** The resting state a slot reaches in the flow. */
  function FinalStates(cardCount: nat): (r: seq<CardAnimationState>)
    ensures |r| == cardCount
  {
    seq(cardCount, i => FinalCardState(i, i == cardCount - 1))
  }

  /**
   The whole flow after the intro wait: every card runs in index order; then
   the last card is both expanded and background, and the list becomes
   interactive. With no cards both indices end at -1.
   */
  function StartOnboardingFlow(s: Session, data: EducationData): (r: Session)
    ensures var n := |data.educationCardList|;
      && r.animationPhase == CardsSequence
      && r.isAnimationComplete
      && r.currentExpandedCard == n - 1 && r.backgroundCardIndex == n - 1
      && |r.cardStates| == n
      && (forall j :: 0 <= j < n - 1 ==>
            r.cardStates[j].isVisible && !r.cardStates[j].isExpanded
            && r.cardStates[j].offsetY == 0 && r.cardStates[j].tiltAngle == 0)
      && (n > 0 ==> r.cardStates[n - 1].isVisible && r.cardStates[n - 1].isExpanded
                    && r.cardStates[n - 1].offsetY == 0 && r.cardStates[n - 1].tiltAngle == 0)
      && r.cardStates == FinalStates(n)
      && r.uiState == s.uiState && r.topBarData == s.topBarData
  {
    var n := |data.educationCardList|;
    var s1 := EnterCardsSequence(s, data);
    var s2 := AnimateCards(s1, n, n, data.expandCardStayInterval);
    FlowInvariant(s1, n, n, data.expandCardStayInterval);
    assert s2.cardStates == FinalStates(n);
    s2.(currentExpandedCard := n - 1, backgroundCardIndex := n - 1, isAnimationComplete := true)
  }

  /** Applying a trace leaves slot `index` holding the trace's last snapshot, and nothing else changed. */
  lemma {:induction false} ApplyTraceEffect(s: Session, index: nat, t: seq<Event>)
    requires index < |s.cardStates|
    ensures var e := Emissions(t);
      ApplyTrace(s, index, t)
        == if |e| == 0 then s else s.(cardStates := s.cardStates[index := e[|e| - 1]])
    decreases |t|
  {
    if |t| > 0 {
      var s' := if t[0].Emit? then s.(cardStates := UpdateCardState(s.cardStates, index, t[0].state)) else s;
      ApplyTraceEffect(s', index, t[1..]);
      assert Emissions(t) == (if t[0].Emit? then [t[0].state] else []) + Emissions(t[1..]);
    }
  }

  /** Feeding any trace, or any prefix of one, touches only the card slots. */
  lemma {:induction false} ApplyTraceKeeps(s: Session, index: nat, t: seq<Event>)
    ensures ApplyTrace(s, index, t).(cardStates := s.cardStates) == s
    decreases |t|
  {
    if |t| > 0 {
      var s' := if t[0].Emit? then s.(cardStates := UpdateCardState(s.cardStates, index, t[0].state)) else s;
      ApplyTraceKeeps(s', index, t[1..]);
    }
  }

  /** One flow iteration: the slot reaches its resting state, the card is background, and the expanded index is cleared unless it was the last card. */
  lemma AnimateCardEffect(s: Session, index: nat, cardCount: nat, stayMs: int)
    requires index < |s.cardStates|
    ensures var isLastCard := index == cardCount - 1;
      AnimateCard(s, index, cardCount, stayMs)
        == s.(cardStates := s.cardStates[index := FinalCardState(index, isLastCard)],
              backgroundCardIndex := index,
              currentExpandedCard := if isLastCard then index else -1)
  {
    var isLastCard := index == cardCount - 1;
    ApplyTraceEffect(EnterCard(s, index), index, AnimateCardSequence(index, stayMs, isLastCard));
    LastEmissionIsFinal(index, stayMs, isLastCard);
  }

  /**
   Midway through the flow, after `done` cards: those cards rest in their
   final state, the rest are still hidden, the last card run is the
   background, the expanded index is cleared after a non-last card, and the
   sequence is not yet marked complete.
   */
  lemma {:induction false} FlowInvariant(s: Session, done: nat, cardCount: nat, stayMs: int)
    requires done <= cardCount
    requires s.cardStates == InitializeCardStates(cardCount)
    ensures var r := AnimateCards(s, done, cardCount, stayMs);
      && |r.cardStates| == cardCount
      && (forall j :: 0 <= j < done ==> r.cardStates[j] == FinalCardState(j, j == cardCount - 1))
      && (forall j :: done <= j < cardCount ==> r.cardStates[j] == HiddenCardState(j))
      && r.isAnimationComplete == s.isAnimationComplete
      && (done > 0 ==> r.backgroundCardIndex == done - 1)
      && (done > 0 ==> r.currentExpandedCard == if done == cardCount then done - 1 else -1)
      && (done == 0 ==> r == s)
      && r.uiState == s.uiState && r.animationPhase == s.animationPhase && r.topBarData == s.topBarData
    ensures done == cardCount ==> AnimateCards(s, done, cardCount, stayMs).cardStates == FinalStates(cardCount)
    decreases done
  {
    if done > 0 {
      FlowInvariant(s, done - 1, cardCount, stayMs);
      AnimateCardEffect(AnimateCards(s, done - 1, cardCount, stayMs), done - 1, cardCount, stayMs);
    }
  }

  /** Just before card `index` publishes its first snapshot, both indices name it, its slot is hidden and the sequence is incomplete. */
  lemma BeforeCardIndices(s: Session, index: nat, cardCount: nat, stayMs: int)
    requires index < cardCount
    requires s.cardStates == InitializeCardStates(cardCount) && !s.isAnimationComplete
    ensures var before := EnterCard(AnimateCards(s, index, cardCount, stayMs), index);
      && before.backgroundCardIndex == index && before.currentExpandedCard == index
      && |before.cardStates| == cardCount
      && !before.cardStates[index].isVisible
      && !before.isAnimationComplete
  {
    FlowInvariant(s, index, cardCount, stayMs);
  }

  /** A second identical tap changes nothing. */
  lemma TapIdempotent(s: Session, cardIndex: int)
    ensures OnCardClicked(OnCardClicked(s, cardIndex), cardIndex) == OnCardClicked(s, cardIndex)
  {
  }

  /** Saving and then coming back restores the card list exactly as it was left. */
  lemma SaveThenBackRestores(s: Session)
    requires s.animationPhase == CardsSequence
    ensures OnBackFromLanding(OnSaveButtonClicked(s)) == s
  {
  }

  /** The timing of the flow: the intro wait, then every card's choreography in index order. */
  function CardsTrace(from: nat, cardCount: nat, stayMs: int): seq<Event>
    decreases cardCount - from
  {
    if from >= cardCount then []
    else AnimateCardSequence(from, stayMs, from == cardCount - 1) + CardsTrace(from + 1, cardCount, stayMs)
  }

  function FlowTrace(data: EducationData): seq<Event> {
    [Hold(data.collapseExpandIntroInterval)]
      + CardsTrace(0, |data.educationCardList|, data.expandCardStayInterval)
  }

  /** The requested waits of cards from..n-1: (1900 + stay) per non-last card plus (2700 + stay) for the last. */
  lemma {:induction false} CardsTotalHold(from: nat, cardCount: nat, stayMs: int)
    requires from <= cardCount
    ensures Sum(Holds(CardsTrace(from, cardCount, stayMs)))
            == if from == cardCount then 0 else (cardCount - 1 - from) * (1900 + stayMs) + 2700 + stayMs
    decreases cardCount - from
  {
    if from < cardCount {
      var head := AnimateCardSequence(from, stayMs, from == cardCount - 1);
      var rest := CardsTrace(from + 1, cardCount, stayMs);
      HoldsAppend(head, rest);
      SumAppend(Holds(head), Holds(rest));
      CardTotalHold(from, stayMs, from == cardCount - 1);
      CardsTotalHold(from + 1, cardCount, stayMs);
      if from + 1 < cardCount {
        assert (cardCount - 1 - from) * (1900 + stayMs)
            == (1900 + stayMs) + (cardCount - 1 - (from + 1)) * (1900 + stayMs);
      }
    }
  }

  /** The whole flow requests the intro wait plus every card's waits. */
  lemma FlowTotalHold(data: EducationData)
    ensures var n := |data.educationCardList|;
            var stay := data.expandCardStayInterval;
      Sum(Holds(FlowTrace(data)))
        == data.collapseExpandIntroInterval + (if n == 0 then 0 else (n - 1) * (1900 + stay) + 2700 + stay)
  {
    var ct := CardsTrace(0, |data.educationCardList|, data.expandCardStayInterval);
    HoldsAppend([Hold(data.collapseExpandIntroInterval)], ct);
    assert [Hold(data.collapseExpandIntroInterval)][1..] == [];
    SumAppend([data.collapseExpandIntroInterval], Holds(ct));
    CardsTotalHold(0, |data.educationCardList|, data.expandCardStayInterval);
  }

  /** Every snapshot in the timing of cards from..n-1 belongs to one of those cards. */
  lemma {:induction false} CardsTraceIndices(from: nat, cardCount: nat, stayMs: int)
    ensures forall e :: e in Emissions(CardsTrace(from, cardCount, stayMs)) ==> from <= e.cardIndex < cardCount
    decreases cardCount - from
  {
    if from < cardCount {
      var head := AnimateCardSequence(from, stayMs, from == cardCount - 1);
      var rest := CardsTrace(from + 1, cardCount, stayMs);
      EmissionsAppend(head, rest);
      EmissionsBelongToCard(from, stayMs, from == cardCount - 1);
      CardsTraceIndices(from + 1, cardCount, stayMs);
    }
  }

  /** No snapshot of a lower-indexed card is published after a snapshot of a higher-indexed card. */
  ghost predicate InCardOrder(tl: seq<Stamped>) {
    forall a, b :: 0 <= a < |tl| && 0 <= b < |tl| && tl[a].state.cardIndex < tl[b].state.cardIndex
      ==> tl[a].at <= tl[b].at
  }

  /** Card animations never overlap, from any starting card and clock. */
  lemma {:induction false} CardsNoOverlap(from: nat, cardCount: nat, stayMs: int, clock: int)
    ensures InCardOrder(Stamp(CardsTrace(from, cardCount, stayMs), clock))
    decreases cardCount - from
  {
    if from < cardCount {
      var head := AnimateCardSequence(from, stayMs, from == cardCount - 1);
      var rest := CardsTrace(from + 1, cardCount, stayMs);
      var mid := clock + ElapsedMs(head);
      StampAppend(head, rest, clock);
      var h := Stamp(head, clock);
      var r := Stamp(rest, mid);
      var tl := Stamp(CardsTrace(from, cardCount, stayMs), clock);
      assert tl == h + r;
      StampStates(head, clock);
      StampStates(rest, mid);
      StampWithin(head, clock);
      StampWithin(rest, mid);
      EmissionsBelongToCard(from, stayMs, from == cardCount - 1);
      CardsTraceIndices(from + 1, cardCount, stayMs);
      CardsNoOverlap(from + 1, cardCount, stayMs, mid);
      forall a | 0 <= a < |h|
        ensures tl[a] == h[a] && tl[a].state.cardIndex == from && tl[a].at <= mid
      {
        assert h[a].state == Emissions(head)[a];
      }
      forall b | |h| <= b < |tl|
        ensures tl[b] == r[b - |h|] && tl[b].state.cardIndex > from && tl[b].at >= mid
      {
        assert r[b - |h|].state == Emissions(rest)[b - |h|];
      }
      forall a, b | 0 <= a < |tl| && 0 <= b < |tl| && tl[a].state.cardIndex < tl[b].state.cardIndex
        ensures tl[a].at <= tl[b].at
      {
        if a >= |h| {
          assert r[a - |h|].state.cardIndex < r[b - |h|].state.cardIndex;
        }
      }
    }
  }

  /** In the whole flow, card j's first snapshot is published no earlier than card i's last, for every i < j. */
  lemma FlowNoOverlap(data: EducationData)
    ensures var tl := Stamp(FlowTrace(data), 0);
      forall a, b :: 0 <= a < |tl| && 0 <= b < |tl| && tl[a].state.cardIndex < tl[b].state.cardIndex
        ==> tl[a].at <= tl[b].at
  {
    var intro: seq<Event> := [Hold(data.collapseExpandIntroInterval)];
    var ct := CardsTrace(0, |data.educationCardList|, data.expandCardStayInterval);
    StampAppend(intro, ct, 0);
    assert intro[1..] == [];
    assert Stamp(intro, 0) == [];
    assert FlowTrace(data) == intro + ct;
    assert Stamp(FlowTrace(data), 0) == Stamp(ct, ElapsedMs(intro));
    CardsNoOverlap(0, |data.educationCardList|, data.expandCardStayInterval, ElapsedMs(intro));
  }

  /** Replaying published snapshots onto a slot list, each into the slot its own cardIndex names. */
  function ReplayEmissions(states: seq<CardAnimationState>, es: seq<CardAnimationState>): seq<CardAnimationState>
    decreases |es|
  {
    if |es| == 0 then states
    else
      var next := if es[0].cardIndex >= 0 then UpdateCardState(states, es[0].cardIndex, es[0]) else states;
      ReplayEmissions(next, es[1..])
  }

  lemma {:induction false} ReplayAppend(states: seq<CardAnimationState>, a: seq<CardAnimationState>, b: seq<CardAnimationState>)
    ensures ReplayEmissions(states, a + b) == ReplayEmissions(ReplayEmissions(states, a), b)
    decreases |a|
  {
    if |a| == 0 {
      assert a + b == b;
    } else {
      assert (a + b)[0] == a[0];
      assert (a + b)[1..] == a[1..] + b;
      var next := if a[0].cardIndex >= 0 then UpdateCardState(states, a[0].cardIndex, a[0]) else states;
      ReplayAppend(next, a[1..], b);
    }
  }

  /** Replaying snapshots that all belong to slot k leaves that slot holding the last of them. */
  lemma {:induction false} ReplaySameSlot(states: seq<CardAnimationState>, es: seq<CardAnimationState>, k: nat)
    requires k < |states| && |es| > 0
    requires forall e :: e in es ==> e.cardIndex == k
    ensures ReplayEmissions(states, es) == states[k := es[|es| - 1]]
    decreases |es|
  {
    assert es[0] in es;
    var next := UpdateCardState(states, k, es[0]);
    if |es| == 1 {
      assert es[1..] == [];
    } else {
      forall e | e in es[1..] ensures e.cardIndex == k {
        assert e in es;
      }
      ReplaySameSlot(next, es[1..], k);
      assert next[k := es[|es| - 1]] == states[k := es[|es| - 1]];
    }
  }

  /** Replaying one card's published snapshots puts its slot in the resting state. */
  lemma ReplayCard(states: seq<CardAnimationState>, k: nat, stayMs: int, isLastCard: bool)
    requires k < |states|
    ensures ReplayEmissions(states, Emissions(AnimateCardSequence(k, stayMs, isLastCard)))
            == states[k := FinalCardState(k, isLastCard)]
  {
    EmissionsBelongToCard(k, stayMs, isLastCard);
    LastEmissionIsFinal(k, stayMs, isLastCard);
    ReplaySameSlot(states, Emissions(AnimateCardSequence(k, stayMs, isLastCard)), k);
  }

  /**
   Iteration k of the state fold does to the slots exactly what card k's
   block of the flow's timing trace publishes.
   */
  lemma FoldStepReplaysCardBlock(s: Session, k: nat, cardCount: nat, stayMs: int)
    requires k < cardCount
    requires s.cardStates == InitializeCardStates(cardCount)
    ensures CardsTrace(k, cardCount, stayMs)
            == AnimateCardSequence(k, stayMs, k == cardCount - 1) + CardsTrace(k + 1, cardCount, stayMs)
    ensures AnimateCards(s, k + 1, cardCount, stayMs).cardStates
            == ReplayEmissions(AnimateCards(s, k, cardCount, stayMs).cardStates,
                               Emissions(AnimateCardSequence(k, stayMs, k == cardCount - 1)))
  {
    FlowInvariant(s, k, cardCount, stayMs);
    AnimateCardEffect(AnimateCards(s, k, cardCount, stayMs), k, cardCount, stayMs);
    ReplayCard(AnimateCards(s, k, cardCount, stayMs).cardStates, k, stayMs, k == cardCount - 1);
  }

  /** Replaying the timing trace of cards from..n-1 onto slots whose first `from` cards are done finishes every slot. */
  lemma {:induction false} ReplayCardsFrom(states: seq<CardAnimationState>, from: nat, cardCount: nat, stayMs: int)
    requires from <= cardCount && |states| == cardCount
    requires forall j :: 0 <= j < from ==> states[j] == FinalCardState(j, j == cardCount - 1)
    ensures ReplayEmissions(states, Emissions(CardsTrace(from, cardCount, stayMs))) == FinalStates(cardCount)
    decreases cardCount - from
  {
    if from == cardCount {
      assert Emissions(CardsTrace(from, cardCount, stayMs)) == [];
      assert states == FinalStates(cardCount);
    } else {
      var head := AnimateCardSequence(from, stayMs, from == cardCount - 1);
      var rest := CardsTrace(from + 1, cardCount, stayMs);
      EmissionsAppend(head, rest);
      ReplayAppend(states, Emissions(head), Emissions(rest));
      ReplayCard(states, from, stayMs, from == cardCount - 1);
      ReplayCardsFrom(states[from := FinalCardState(from, from == cardCount - 1)], from + 1, cardCount, stayMs);
    }
  }

  /**
   The timing trace and the state fold describe the same run: replaying the
   flow trace's snapshots onto the initial slots gives the slots the flow
   leaves.
   */
  lemma FlowTraceReplaysFlow(s: Session, data: EducationData)
    ensures ReplayEmissions(InitializeCardStates(|data.educationCardList|), Emissions(FlowTrace(data)))
            == StartOnboardingFlow(s, data).cardStates
  {
    var n := |data.educationCardList|;
    var intro: seq<Event> := [Hold(data.collapseExpandIntroInterval)];
    var ct := CardsTrace(0, n, data.expandCardStayInterval);
    EmissionsAppend(intro, ct);
    assert intro[1..] == [];
    assert Emissions(intro) == [];
    assert FlowTrace(data) == intro + ct;
    assert Emissions(FlowTrace(data)) == Emissions(ct);
    ReplayCardsFrom(InitializeCardStates(n), 0, n, data.expandCardStayInterval);
  }
}
